=== FILE: README.md ===
# Karafka consumer-group contract, modelled in Dafny

Karafka validates every consumer-group definition with a contract before the
group is used to build consumers. The contract is given the group as a hash:
an `id`, a `deserializer` class and an ordered list of `topics`. Each topic has
a `name`, consumer and deserializer classes and its Kafka settings. The
result of `call` is `success?` exactly when no rule failed, and `errors`
renders the failures through a message catalog, grouped by path. In the
model, `Call` is total: it evaluates the `id` and `topics` rules, and the
name relations only when `topics` is a non-empty list, and collects each
problem as a `(path, error key)` failure.

The model has these modules:

- `Config`: the hash as immutable datatypes. A field's value is dynamic
  (`Absent | Nil | Int | Str | List`), as it is in Ruby. Class references are
  opaque handles. The process-wide `strict_topics_namespacing` switch is an
  explicit `Policy` argument, `true` by default.
- `Identifier`: the identifier grammar `id` must match.
- `Names`: topic-name uniqueness, both plain and under the namespacing
  convention.
- `Catalog`: the rule set, the message catalog and the catalog-completeness
  audit.
- `Contract`: `Call`, `Result.Success`, `Errors`, and the lemmas that tie
  them to reference definitions.
- `Scenarios`: each documented example of the contract as a lemma.

The behaviour modelled:

- `id` must be a string matching the identifier grammar. A missing key
  reports `missing`. Nil, an integer or a string outside the grammar reports
  `format`.
- `topics` must be a non-empty list. A missing key reports `missing`. Nil,
  any other non-list and the empty list report `format`. A malformed
  `topics` suppresses the name relations below. In the model this is the
  one short-circuit, and `Call` evaluates the `id` rule independently of
  the `topics` rules.
- No two topics may share a name (`names_not_unique`). The model assumes
  the check compares the list's size with the size of its duplicate-free
  version (Ruby's `uniq`). `UniqSizeIffDistinct` proves this equals
  pairwise distinctness.
- With strict namespacing on, no two different names may become equal once
  every `.` is written as `_` (`namespaced_names_not_unique`). With it off,
  this relation is not checked. The name list is scanned head against tail.
  `HasNamespaceCollisionIff` proves the scan equals the pairwise reference
  definition `CollisionFree`.
- Every error each rule can report has a catalog entry.
  `ShippedCatalogIsComplete` proves that the audit in Karafka's contract
  spec finds nothing missing for the model's rules and catalog: the last
  segment of every rule's path occurs in the catalog's text.

Assumptions and decisions:

- The identifier grammar is assumed to be Karafka's name pattern
  `\A(\w|-|\.)+\z` with ASCII `\w`. It is `Identifier.WellFormedId`. It
  accepts `id` and rejects `%^&*(`.
- Collision rule (assumed from
  `spec/lib/karafka/contracts/consumer_group_spec.rb:74-105`): two different
  names collide when they become equal under `tr('.', '_')`. The rule is
  checked only when `strict_topics_namespacing` is true.
- The error keys and catalog texts are this model's own. They are keyed
  `<terminal segment>_<error>`, for example `id_format`, plus one shared
  `missing` entry.

## Model

| member | source | states |
|---|---|---|
| Identifier.MatchesIdFormatIff | spec/lib/karafka/contracts/consumer_group_spec.rb:109-127 | the anchored one-or-more match of the identifier grammar accepts exactly the non-empty strings made only of word characters, `-` and `.` |
| Identifier.RejectsForeignChar | spec/lib/karafka/contracts/consumer_group_spec.rb:122-125 | one character outside the grammar anywhere in a string makes the id format check reject it |
| Names.Uniq | spec/lib/karafka/contracts/consumer_group_spec.rb:58-72 | the duplicate-free list of names is no longer than the list, has exactly the same members, and has no repeated element |
| Names.UniqSizeIffDistinct | spec/lib/karafka/contracts/consumer_group_spec.rb:58-72 | comparing the name list's size with its duplicate-free size detects a repeated name, in both directions |
| Names.Underscore | spec/lib/karafka/contracts/consumer_group_spec.rb:74-93 | normalising a name keeps its length, leaves no `.`, and changes only dots, each into `_` |
| Names.UnderscoreFixedIff | spec/lib/karafka/contracts/consumer_group_spec.rb:74-93 | a name is its own normal form exactly when it has no dot |
| Names.HasNamespaceCollisionIff | spec/lib/karafka/contracts/consumer_group_spec.rb:74-93 | the head-against-tail scan finds a collision exactly when two names of the list differ but normalise to the same name |
| Catalog.MessageKey | spec/lib/karafka/contracts/consumer_group_spec.rb:31-38 | the catalog key of every error other than `missing` starts with the rule's terminal path segment |
| Catalog.Lookup | spec/lib/karafka/contracts/consumer_group_spec.rb:31-38 | a key resolves exactly when some catalog entry has that key, and the message returned is the one stored in the first entry with that key |
| Catalog.Audit | spec/lib/karafka/contracts/consumer_group_spec.rb:31-38 | the audit lists only terminal segments absent from the catalog text, and lists every rule whose terminal segment is absent |
| Catalog.AuditEntriesComeFromRules | spec/lib/karafka/contracts/consumer_group_spec.rb:35-36 | every segment the audit reports is the terminal segment of one of the rules |
| Catalog.KeyOccursInSerialized | spec/lib/karafka/contracts/consumer_group_spec.rb:33 | every key of the catalog occurs in the catalog's serialized text |
| Catalog.CoverageImpliesEmptyAudit | spec/lib/karafka/contracts/consumer_group_spec.rb:31-38 | if every error of every rule has a catalog entry, the substring audit reports nothing |
| Catalog.ShippedCatalogCovers | spec/lib/karafka/contracts/consumer_group_spec.rb:31-38 | the shipped catalog has an entry for every error key of every rule of the consumer-group rule set |
| Catalog.ShippedCatalogIsComplete | spec/lib/karafka/contracts/consumer_group_spec.rb:31-38 | the audit of the shipped rules against the shipped catalog reports no unresolved segment |
| Contract.Call | spec/lib/karafka/contracts/consumer_group_spec.rb:4 | every failure `call` reports is declared by a rule of the rule set, at path `id` or `topics` |
| Contract.CallSucceedsIff | spec/lib/karafka/contracts/consumer_group_spec.rb:41-127 | `call` succeeds exactly when id is a well-formed string, topics a non-empty list with pairwise distinct names, and, under strict namespacing, collision-free names |
| Contract.InvalidIdFails | spec/lib/karafka/contracts/consumer_group_spec.rb:109-127 | a missing, nil, non-string or ill-formed id fails, with `missing` or `format` at path `id` |
| Contract.ValidIdAddsNoFailure | spec/lib/karafka/contracts/consumer_group_spec.rb:41-43 | a string id in the identifier grammar adds no failure: every failure `call` reports is at path `topics` |
| Contract.MalformedTopicsFail | spec/lib/karafka/contracts/consumer_group_spec.rb:45-56 | missing, nil, non-list or empty topics fail with one structural error and no name errors |
| Contract.WellFormedTopicsHaveNoStructuralFailure | spec/lib/karafka/contracts/consumer_group_spec.rb:41-50 | a non-empty topic list reports neither `missing` nor `format` at path `topics` |
| Contract.DuplicateNamesFail | spec/lib/karafka/contracts/consumer_group_spec.rb:58-63 | any two topics with the same name make `call` fail with `names_not_unique`, under either policy |
| Contract.NamesNotUniqueIff | spec/lib/karafka/contracts/consumer_group_spec.rb:58-72 | `names_not_unique` is reported exactly when `topics` is a non-empty list in which some name repeats, under either policy |
| Contract.CollisionFailsWhenStrict | spec/lib/karafka/contracts/consumer_group_spec.rb:86-93 | any two topics whose different names normalise to the same name make `call` fail with `namespaced_names_not_unique` under strict namespacing |
| Contract.NamespacedNamesNotUniqueIff | spec/lib/karafka/contracts/consumer_group_spec.rb:74-105 | `namespaced_names_not_unique` is reported exactly under strict namespacing, on a non-empty topic list with two colliding names, whether or not a name also repeats (the model's choice for a combination the spec never shows) |
| Contract.PolicyOnlyGovernsNamespacing | spec/lib/karafka/contracts/consumer_group_spec.rb:95-105 | turning strict namespacing off removes exactly the namespaced-collision failure; strict success is lenient success plus collision-free names |
| Contract.Errors | spec/lib/karafka/contracts/consumer_group_spec.rb:62 | `errors` is defined for any failure set; it holds each failure's rendered message under its path and nothing that no failure produced |
| Contract.ErrorsEmptyIffSuccess | spec/lib/karafka/contracts/consumer_group_spec.rb:58-63 | `errors` is empty exactly when the result is a success |
| Contract.EveryFailureRenders | spec/lib/karafka/contracts/consumer_group_spec.rb:31-38 | every failure `call` can report resolves to an entry of the shipped catalog, and renders as that entry's text |
| Scenarios.FixturePasses | spec/lib/karafka/contracts/consumer_group_spec.rb:6-29 | the fixture group with one topic and id `id` is accepted under the default policy |
| Scenarios.EmptyTopicsFail | spec/lib/karafka/contracts/consumer_group_spec.rb:46-50 | an empty topic list fails with `format` at `topics` |
| Scenarios.NilTopicsFail | spec/lib/karafka/contracts/consumer_group_spec.rb:52-56 | a nil topic list fails with `format` at `topics` |
| Scenarios.DuplicatedTopicFails | spec/lib/karafka/contracts/consumer_group_spec.rb:58-63 | a duplicated topic fails, and `errors` has an entry for `topics` |
| Scenarios.OnlyNameNormalisesToName | spec/lib/karafka/contracts/consumer_group_spec.rb:65-72 | the only name that normalises to the undotted `name` is `name` itself |
| Scenarios.RenamedCopyPasses | spec/lib/karafka/contracts/consumer_group_spec.rb:65-72 | renaming the copied topic to any name other than `name` is accepted under the default policy |
| Scenarios.DistinctNamespacedNamesPass | spec/lib/karafka/contracts/consumer_group_spec.rb:77-84 | `some.namespaced.topic-name` beside `another_namespaced_topic-name` is accepted under strict namespacing |
| Scenarios.NamespacedNamesCollide | spec/lib/karafka/contracts/consumer_group_spec.rb:86-90 | `some.namespaced.topic-name` and `some_namespaced_topic-name` differ but normalise to the same name |
| Scenarios.CollidingNamespacedNamesFailWhenStrict | spec/lib/karafka/contracts/consumer_group_spec.rb:86-93 | that pair fails under strict namespacing with `namespaced_names_not_unique` |
| Scenarios.CollidingNamespacedNamesPassWhenLenient | spec/lib/karafka/contracts/consumer_group_spec.rb:95-105 | the same pair is accepted when strict namespacing is off |
| Scenarios.NilIdFails | spec/lib/karafka/contracts/consumer_group_spec.rb:110-114 | a nil id fails |
| Scenarios.IntegerIdFails | spec/lib/karafka/contracts/consumer_group_spec.rb:116-120 | the integer id `2` fails |
| Scenarios.PunctuationIdFails | spec/lib/karafka/contracts/consumer_group_spec.rb:122-126 | the id `%^&*(` fails with `format` at `id` |

## Left out

- Per-topic validation is left out: the topic's Kafka settings map, `max_wait_time`, `max_messages`, `initial_offset` and `subscription_group`. It belongs to a separate topic contract that is not part of this model. Topic records carry these fields only as data.
- The `deserializer` class of the group and the consumer and deserializer classes of topics are opaque handles. The consumer-group rules never inspect them.
- The process-global configuration object holding `strict_topics_namespacing` is replaced by an explicit `Policy` argument. Changing it around a call is modelled by calling with a different policy.
- Loading the catalog from YAML, locales and message interpolation are left out. The catalog is an ordered list of (key, text) pairs, and rendering is a lookup.
- Whether Karafka still evaluates the `topics` rules after the `id` rule fails, and the reverse, is not shown by its contract spec, whose examples each break one field. The model assumes the `id` and `topics` rules are evaluated independently and reports both failures together. The model also evaluates the two name relations independently, so a list with both a repeated and a colliding name reports both `names_not_unique` and `namespaced_names_not_unique`; the contract's spec never combines them.
- A topics list whose element is nil, is not a hash or has no string `name` cannot be represented: `Value.List` holds topic records only, each with a string name.
- Ruby exceptions are not modelled. Every function here is total, so "`errors` does not raise" holds by construction.
- Determinism of `call` is not stated as a lemma: `Call` is a mathematical function of the group and the policy.
- Contract.Errors: groups rendered messages in a set per path, so the order and multiplicity of messages under one path are not modelled.

=== FILE: catalog.dfy ===
/** The consumer-group rule set and its error-message catalog.

    Every rule is identified by a path into the configuration hash. A rule
    reports one of a fixed set of error keys; the catalog entry for an error
    is keyed by the rule's terminal path segment joined to the error key
    (`id_format`), except for a missing key, which shares one `missing`
    entry. The completeness audit is the one the contract's spec runs: the
    terminal segment of every rule's path must occur in the catalog's text.
 */
module Catalog {
  import opened Config

  datatype ErrorKey = Missing | Format | NamesNotUnique | NamespacedNamesNotUnique

  function KeyName(k: ErrorKey): string
  {
    match k
    case Missing => "missing"
    case Format => "format"
    case NamesNotUnique => "names_not_unique"
    case NamespacedNamesNotUnique => "namespaced_names_not_unique"
  }

  /** A rule: a required key checked by a predicate, or a relation over the whole hash. */
  datatype Rule =
    | Required(path: seq<string>)
    | Virtual(path: seq<string>, key: ErrorKey)

  /** The error keys a rule can report. */
  function RuleKeys(r: Rule): (keys: set<ErrorKey>)
    ensures keys != {}
  {
    match r
    case Required(_) => {Missing, Format}
    case Virtual(_, k) => {k}
  }

  /** The last segment of a path; the empty path behaves like Ruby's `nil.to_s`. */
  function Terminal(path: seq<string>): string
  {
    if |path| == 0 then "" else path[|path| - 1]
  }

  /** The catalog key under which the message for `k` at `path` is stored: `id_format`, `missing`. */
  function MessageKey(path: seq<string>, k: ErrorKey): (key: string)
    ensures k != Missing ==> |key| > |Terminal(path)| && key[..|Terminal(path)|] == Terminal(path)
  {
    if k == Missing then KeyName(k) else Terminal(path) + "_" + KeyName(k)
  }

  /** The consumer-group contract's rules. */
  const Rules: seq<Rule> := [
    Required(["id"]),
    Required(["topics"]),
    Virtual(["topics"], NamesNotUnique),
    Virtual(["topics"], NamespacedNamesNotUnique)
  ]

  /** An ordered catalog of (key, message template) entries. */
  type MessageCatalog = seq<(string, string)>

  /** The model's message catalog for the consumer-group rules. */
  const Messages: MessageCatalog := [
    ("missing", "needs to be present"),
    ("id_format", "needs to be a string with a Kafka accepted format"),
    ("topics_format", "needs to be a non-empty array"),
    ("topics_names_not_unique", "all topic names within a single consumer group must be unique"),
    ("topics_namespaced_names_not_unique", "topic names must not collide once dots and underscores are treated alike")
  ]

  /** The message stored under `key`: the first entry with that key. */
  function Lookup(catalog: MessageCatalog, key: string): (m: Option<string>)
    ensures m.Some? <==> exists i :: 0 <= i < |catalog| && catalog[i].0 == key
    ensures m.Some? ==> exists i :: 0 <= i < |catalog| && catalog[i] == (key, m.value) && FirstWithKey(catalog, key, i)
    decreases |catalog|
  {
    if |catalog| == 0 then None
    else if catalog[0].0 == key then
      assert FirstWithKey(catalog, key, 0);
      Some(catalog[0].1)
    else
      var m := Lookup(catalog[1..], key);
      if m.Some? then
        ghost var i :| 0 <= i < |catalog[1..]| && catalog[1..][i] == (key, m.value) && FirstWithKey(catalog[1..], key, i);
        assert catalog[i + 1] == (key, m.value);
        assert forall j :: 1 <= j < i + 1 ==> catalog[j] == catalog[1..][j - 1];
        assert FirstWithKey(catalog, key, i + 1);
        m
      else
        m
  }

  /** No entry before position `i` has the key `key`. */
  ghost predicate FirstWithKey(catalog: MessageCatalog, key: string, i: int)
    requires 0 <= i <= |catalog|
  {
    forall j :: 0 <= j < i ==> catalog[j].0 != key
  }

  /** The catalog written out as text, one `key: message` line per entry. */
  function Serialize(catalog: MessageCatalog): string
    decreases |catalog|
  {
    if |catalog| == 0 then ""
    else catalog[0].0 + ": " + catalog[0].1 + "\n" + Serialize(catalog[1..])
  }

  /** `needle` occurs in `hay` starting at position `i`. */
  predicate OccursAt(needle: string, hay: string, i: int)
  {
    0 <= i <= |hay| - |needle| && hay[i..i + |needle|] == needle
  }

  /** `needle` occurs somewhere inside `hay` (Ruby's `String#include?`). */
  predicate Occurs(needle: string, hay: string)
  {
    exists i | 0 <= i <= |hay| - |needle| :: OccursAt(needle, hay, i)
  }

  /** The terminal segments of `rules` that do not occur in the catalog's text, in rule order. */
  function Audit(rules: seq<Rule>, catalog: MessageCatalog): (unresolved: seq<string>)
    ensures forall s :: s in unresolved ==> !Occurs(s, Serialize(catalog))
    ensures forall k :: 0 <= k < |rules| && !Occurs(Terminal(rules[k].path), Serialize(catalog))
              ==> Terminal(rules[k].path) in unresolved
    decreases |rules|
  {
    if |rules| == 0 then []
    else
      var s := Terminal(rules[0].path);
      var rest := Audit(rules[1..], catalog);
      assert forall k :: 1 <= k < |rules| ==> rules[k] == rules[1..][k - 1];
      if Occurs(s, Serialize(catalog)) then rest else [s] + rest
  }

  /** Every error every rule can report has a catalog entry. */
  ghost predicate Covers(rules: seq<Rule>, catalog: MessageCatalog)
  {
    forall j, k :: 0 <= j < |rules| && k in RuleKeys(rules[j]) ==> Lookup(catalog, MessageKey(rules[j].path, k)).Some?
  }

  /** A relation rule reports a specific key, never the shared `missing` one. */
  ghost predicate WellKeyed(rules: seq<Rule>)
  {
    forall r :: r in rules && r.Virtual? ==> r.key != Missing
  }

  /** What occurs in a part of a text occurs in the whole text. */
  lemma OccursInSlice(needle: string, hay: string, lo: int, hi: int)
    requires 0 <= lo <= hi <= |hay|
    requires Occurs(needle, hay[lo..hi])
    ensures Occurs(needle, hay)
  {
    var part := hay[lo..hi];
    var i :| 0 <= i <= |part| - |needle| && OccursAt(needle, part, i);
    var a, b := part[i..i + |needle|], hay[lo + i..lo + i + |needle|];
    assert forall k :: 0 <= k < |a| ==> a[k] == b[k];
    assert OccursAt(needle, hay, lo + i);
  }

  /** A catalog key appears in the catalog's text. */
  lemma {:induction false} KeyOccursInSerialized(catalog: MessageCatalog, key: string)
    requires Lookup(catalog, key).Some?
    ensures Occurs(key, Serialize(catalog))
    decreases |catalog|
  {
    var text := Serialize(catalog);
    if catalog[0].0 == key {
      assert text[0..|key|] == key;
      assert OccursAt(key, text, 0);
    } else {
      var tail := catalog[1..];
      assert Lookup(tail, key).Some? by {
        var i :| 0 <= i < |catalog| && catalog[i].0 == key;
        assert tail[i - 1].0 == key;
      }
      KeyOccursInSerialized(tail, key);
      var head := catalog[0].0 + ": " + catalog[0].1 + "\n";
      assert text == head + Serialize(tail);
      assert text[|head|..|text|] == Serialize(tail);
      OccursInSlice(key, text, |head|, |text|);
    }
  }

  /** A prefix of a text's substring is itself a substring of that text. */
  lemma PrefixOccurs(prefix: string, word: string, text: string)
    requires |prefix| <= |word| && word[..|prefix|] == prefix
    requires Occurs(word, text)
    ensures Occurs(prefix, text)
  {
    var i :| 0 <= i <= |text| - |word| && OccursAt(word, text, i);
    assert text[i..i + |prefix|] == word[..|prefix|];
    assert OccursAt(prefix, text, i);
  }

  /** The terminal segment of a covered rule occurs in the catalog's text. */
  lemma CoveredTerminalOccurs(rules: seq<Rule>, catalog: MessageCatalog, k: int)
    requires Covers(rules, catalog)
    requires WellKeyed(rules)
    requires 0 <= k < |rules|
    ensures Occurs(Terminal(rules[k].path), Serialize(catalog))
  {
    var r := rules[k];
    var e := if r.Required? then Format else r.key;
    assert e in RuleKeys(r) && e != Missing;
    var key := MessageKey(r.path, e);
    assert Lookup(catalog, key).Some?;
    KeyOccursInSerialized(catalog, key);
    PrefixOccurs(Terminal(r.path), key, Serialize(catalog));
  }

  /** Exact-key coverage implies the contract spec's substring audit finds nothing unresolved. */
  lemma CoverageImpliesEmptyAudit(rules: seq<Rule>, catalog: MessageCatalog)
    requires Covers(rules, catalog)
    requires WellKeyed(rules)
    ensures Audit(rules, catalog) == []
  {
    var unresolved := Audit(rules, catalog);
    if unresolved != [] {
      var s := unresolved[0];
      assert s in unresolved;
      AuditEntriesComeFromRules(rules, catalog, s);
      var k :| 0 <= k < |rules| && Terminal(rules[k].path) == s;
      CoveredTerminalOccurs(rules, catalog, k);
    }
  }

  /** Every unresolved segment the audit reports is the terminal segment of one of the rules. */
  lemma {:induction false} AuditEntriesComeFromRules(rules: seq<Rule>, catalog: MessageCatalog, s: string)
    requires s in Audit(rules, catalog)
    ensures exists k :: 0 <= k < |rules| && Terminal(rules[k].path) == s
    decreases |rules|
  {
    if s != Terminal(rules[0].path) {
      AuditEntriesComeFromRules(rules[1..], catalog, s);
      var k :| 0 <= k < |rules[1..]| && Terminal(rules[1..][k].path) == s;
      assert rules[k + 1] == rules[1..][k];
    }
  }

  /** The catalog key of every entry resolves. */
  lemma EntryResolves(catalog: MessageCatalog, i: int)
    requires 0 <= i < |catalog|
    ensures Lookup(catalog, catalog[i].0).Some?
  {
  }

  /** The shipped catalog stores the `id` format error under `id_format`. */
  lemma IdFormatKeyStored()
    ensures Messages[1].0 == MessageKey(["id"], Format)
  {
    assert "id" + "_" + "format" == "id_format";
  }

  /** The shipped catalog stores the `topics` format error under `topics_format`. */
  lemma TopicsFormatKeyStored()
    ensures Messages[2].0 == MessageKey(["topics"], Format)
  {
    assert "topics" + "_" + "format" == "topics_format";
  }

  /** The shipped catalog stores the repeated-name error under `topics_names_not_unique`. */
  lemma NamesNotUniqueKeyStored()
    ensures Messages[3].0 == MessageKey(["topics"], NamesNotUnique)
  {
    assert "topics" + "_" + "names_not_unique" == "topics_names_not_unique";
  }

  /** The shipped catalog stores the collision error under `topics_namespaced_names_not_unique`. */
  lemma NamespacedNamesNotUniqueKeyStored()
    ensures Messages[4].0 == MessageKey(["topics"], NamespacedNamesNotUnique)
  {
    assert "topics" + "_" + "namespaced_names_not_unique" == "topics_namespaced_names_not_unique";
  }

  /** Entry `j + 1` of the shipped catalog holds the specific error `k` of shipped rule `j`. */
  lemma ShippedRuleHasEntry(j: int, k: ErrorKey)
    requires 0 <= j < |Rules| && k in RuleKeys(Rules[j]) && k != Missing
    ensures Messages[j + 1].0 == MessageKey(Rules[j].path, k)
  {
    if j == 0 {
      assert Rules[j] == Required(["id"]) && k == Format;
      IdFormatKeyStored();
    } else if j == 1 {
      assert Rules[j] == Required(["topics"]) && k == Format;
      TopicsFormatKeyStored();
    } else if j == 2 {
      assert Rules[j] == Virtual(["topics"], NamesNotUnique);
      NamesNotUniqueKeyStored();
    } else {
      assert Rules[j] == Virtual(["topics"], NamespacedNamesNotUnique);
      NamespacedNamesNotUniqueKeyStored();
    }
  }

  /** The shipped catalog has an entry for every error of every rule. */
  lemma ShippedCatalogCovers()
    ensures Covers(Rules, Messages)
  {
    forall j, k | 0 <= j < |Rules| && k in RuleKeys(Rules[j])
      ensures Lookup(Messages, MessageKey(Rules[j].path, k)).Some?
    {
      if k == Missing {
        assert Messages[0].0 == MessageKey(Rules[j].path, k);
        EntryResolves(Messages, 0);
      } else {
        ShippedRuleHasEntry(j, k);
        EntryResolves(Messages, j + 1);
      }
    }
  }

  /** No relation rule of the shipped rule set reports the shared `missing` error. */
  lemma ShippedRulesWellKeyed()
    ensures WellKeyed(Rules)
  {
  }

  /** The contract spec's audit of the shipped rules against the shipped catalog finds nothing unresolved. */
  lemma ShippedCatalogIsComplete()
    ensures Audit(Rules, Messages) == []
  {
    ShippedCatalogCovers();
    ShippedRulesWellKeyed();
    CoverageImpliesEmptyAudit(Rules, Messages);
  }
}

=== FILE: config.dfy ===
/** The configuration values a consumer-group contract is called with.

    Karafka's contract validates an untyped Ruby hash, so each validated
    field holds a dynamic `Value`: it may be missing, nil, of the wrong type, or well typed.
    Consumer and deserializer classes are opaque handles whose behaviour is
    never validated by this contract.
 */
module Config {

  datatype Option<+T> = None | Some(value: T)

  /** An opaque reference to a consumer or deserializer class. */
  datatype Handle = NoHandle | ClassHandle(tag: nat)

  /** One topic record of a consumer group, with the fields of the test fixture. */
  datatype Topic = Topic(
    id: string,
    name: string,
    consumer: Handle,
    deserializer: Handle,
    kafka: map<string, string>,
    maxWaitTime: int,
    maxMessages: int,
    manualOffsetManagement: bool,
    initialOffset: string,
    subscriptionGroup: Option<string>
  )

  /** The value found under one key of the consumer-group hash. */
  datatype Value =
    | Absent                    // the key is not in the hash at all
    | Nil                       // the key maps to nil
    | Int(i: int)
    | Str(s: string)
    | List(items: seq<Topic>)

  /** The consumer-group hash handed to the contract. */
  datatype ConsumerGroup = ConsumerGroup(id: Value, deserializer: Handle, topics: Value)

  /** Process-wide switches the contract reads while validating; passed explicitly here. */
  datatype Policy = Policy(strictTopicsNamespacing: bool)

  /** The policy in force unless the host application overrides it. */
  const DefaultPolicy: Policy := Policy(true)

  /** The names of the topics, in order. */
  function TopicNames(topics: seq<Topic>): (names: seq<string>)
    ensures |names| == |topics|
    ensures forall i :: 0 <= i < |topics| ==> names[i] == topics[i].name
  {
    seq(|topics|, i requires 0 <= i < |topics| => topics[i].name)
  }
}

=== FILE: contract.dfy ===
/** The consumer-group contract: `call`, the result's `success?` and `errors`.

    In this model `Call` is total: every problem becomes a (path, error key)
    failure in the result, and the `id` rule and the `topics` rule are
    evaluated independently. The relations over topic names run only once `topics` is
    a non-empty list; a missing or malformed `topics` yields its one
    structural failure instead. The two name relations are evaluated
    independently of each other, so both can be reported together.
 */
module Contract {
  import opened Config
  import opened Identifier
  import opened Names
  import opened Catalog

  /** One failed rule: where it failed and which error it reports. */
  datatype Failure = Failure(path: seq<string>, key: ErrorKey)

  /** The outcome of one call of the contract. */
  datatype Result = Result(failures: set<Failure>) {
    predicate Success()
    {
      failures == {}
    }
  }

  /** The `id` rule's check: a string in the identifier grammar. */
  predicate ValidId(v: Value)
  {
    v.Str? && MatchesIdFormat(v.s)
  }

  /** The `topics` rule's check: a non-empty list. */
  predicate TopicsWellFormed(v: Value)
  {
    v.List? && |v.items| > 0
  }

  function IdFailures(id: Value): set<Failure>
  {
    if id.Absent? then {Failure(["id"], Missing)}
    else if ValidId(id) then {}
    else {Failure(["id"], Format)}
  }

  /** Failures of the relations over the names of a well-formed topic list. */
  function NameFailures(names: seq<string>, policy: Policy): set<Failure>
  {
    (if |names| == |Uniq(names)| then {} else {Failure(["topics"], NamesNotUnique)})
    + (if policy.strictTopicsNamespacing && HasNamespaceCollision(names)
       then {Failure(["topics"], NamespacedNamesNotUnique)} else {})
  }

  function TopicsFailures(topics: Value, policy: Policy): set<Failure>
  {
    if topics.Absent? then {Failure(["topics"], Missing)}
    else if !TopicsWellFormed(topics) then {Failure(["topics"], Format)}
    else NameFailures(TopicNames(topics.items), policy)
  }

  /** A failure some rule of the rule set declares it can report. */
  ghost predicate Announced(rules: seq<Rule>, f: Failure)
  {
    exists j :: 0 <= j < |rules| && rules[j].path == f.path && f.key in RuleKeys(rules[j])
  }

  /** The contract's `call`: validate a consumer group under a policy. */
  function Call(cg: ConsumerGroup, policy: Policy): (r: Result)
    ensures forall f :: f in r.failures ==> Announced(Rules, f)
    ensures forall f :: f in r.failures ==> f.path == ["id"] || f.path == ["topics"]
  {
    var r := Result(IdFailures(cg.id) + TopicsFailures(cg.topics, policy));
    assert forall f :: f in r.failures ==>
      (f.path == ["id"] && f.key in RuleKeys(Rules[0])) || (f.path == ["topics"] && f.key in RuleKeys(Rules[1]))
      || (f == Failure(["topics"], NamesNotUnique) && f.path == Rules[2].path && f.key in RuleKeys(Rules[2]))
      || (f == Failure(["topics"], NamespacedNamesNotUnique) && f.path == Rules[3].path && f.key in RuleKeys(Rules[3]));
    r
  }

  /** Reference reading of what the contract accepts, in terms of the reference definitions. */
  ghost predicate Acceptable(cg: ConsumerGroup, policy: Policy)
  {
    && cg.id.Str? && WellFormedId(cg.id.s)
    && TopicsWellFormed(cg.topics)
    && Distinct(TopicNames(cg.topics.items))
    && (policy.strictTopicsNamespacing ==> CollisionFree(TopicNames(cg.topics.items)))
  }

  /** `call` succeeds exactly on acceptable consumer groups. */
  lemma CallSucceedsIff(cg: ConsumerGroup, policy: Policy)
    ensures Call(cg, policy).Success() <==> Acceptable(cg, policy)
  {
    if cg.id.Str? {
      MatchesIdFormatIff(cg.id.s);
    }
    if TopicsWellFormed(cg.topics) {
      var names := TopicNames(cg.topics.items);
      UniqSizeIffDistinct(names);
      HasNamespaceCollisionIff(names);
    }
  }

  /** An invalid `id` (missing, nil, not a string, or outside the grammar) fails at path `id`. */
  lemma InvalidIdFails(cg: ConsumerGroup, policy: Policy)
    requires !(cg.id.Str? && WellFormedId(cg.id.s))
    ensures !Call(cg, policy).Success()
    ensures Failure(["id"], if cg.id.Absent? then Missing else Format) in Call(cg, policy).failures
  {
    if cg.id.Str? {
      MatchesIdFormatIff(cg.id.s);
    }
  }

  /** A well-formed string id adds no failure: whatever `call` reports is at path `topics`. */
  lemma ValidIdAddsNoFailure(cg: ConsumerGroup, policy: Policy)
    requires cg.id.Str? && WellFormedId(cg.id.s)
    ensures forall f :: f in Call(cg, policy).failures ==> f.path == ["topics"]
  {
    MatchesIdFormatIff(cg.id.s);
  }

  /** A missing, nil or non-list or empty `topics` fails once, at path `topics`, with no name failures. */
  lemma MalformedTopicsFail(cg: ConsumerGroup, policy: Policy)
    requires !TopicsWellFormed(cg.topics)
    ensures !Call(cg, policy).Success()
    ensures Failure(["topics"], if cg.topics.Absent? then Missing else Format) in Call(cg, policy).failures
    ensures (set f | f in Call(cg, policy).failures && f.path == ["topics"])
            == {Failure(["topics"], if cg.topics.Absent? then Missing else Format)}
    ensures Failure(["topics"], NamesNotUnique) !in Call(cg, policy).failures
    ensures Failure(["topics"], NamespacedNamesNotUnique) !in Call(cg, policy).failures
  {
  }

  /** A non-empty topic list reports no structural failure at path `topics`. */
  lemma WellFormedTopicsHaveNoStructuralFailure(cg: ConsumerGroup, policy: Policy)
    requires TopicsWellFormed(cg.topics)
    ensures Failure(["topics"], Missing) !in Call(cg, policy).failures
    ensures Failure(["topics"], Format) !in Call(cg, policy).failures
  {
  }

  /** Two topics sharing a name make the call fail with the names-not-unique error, under any policy. */
  lemma DuplicateNamesFail(cg: ConsumerGroup, policy: Policy, i: int, j: int)
    requires cg.topics.List?
    requires 0 <= i < j < |cg.topics.items|
    requires cg.topics.items[i].name == cg.topics.items[j].name
    ensures Failure(["topics"], NamesNotUnique) in Call(cg, policy).failures
    ensures !Call(cg, policy).Success()
  {
    var names := TopicNames(cg.topics.items);
    UniqSizeIffDistinct(names);
    assert names[i] == names[j];
  }

  /** `names_not_unique` is reported exactly when a well-formed topic list repeats a name. */
  lemma NamesNotUniqueIff(cg: ConsumerGroup, policy: Policy)
    ensures Failure(["topics"], NamesNotUnique) in Call(cg, policy).failures
        <==> TopicsWellFormed(cg.topics) && !Distinct(TopicNames(cg.topics.items))
  {
    if TopicsWellFormed(cg.topics) {
      UniqSizeIffDistinct(TopicNames(cg.topics.items));
    }
  }

  /** Two topics whose names collide make the call fail with the namespaced error under strict namespacing. */
  lemma CollisionFailsWhenStrict(cg: ConsumerGroup, i: int, j: int)
    requires cg.topics.List?
    requires 0 <= i < |cg.topics.items| && 0 <= j < |cg.topics.items|
    requires Collide(cg.topics.items[i].name, cg.topics.items[j].name)
    ensures Failure(["topics"], NamespacedNamesNotUnique) in Call(cg, Policy(true)).failures
    ensures !Call(cg, Policy(true)).Success()
  {
    var names := TopicNames(cg.topics.items);
    HasNamespaceCollisionIff(names);
    assert !CollisionFree(names) by {
      assert Collide(names[i], names[j]);
    }
  }

  /** `namespaced_names_not_unique` is reported exactly under strict namespacing, on a well-formed topic list with a collision. */
  lemma NamespacedNamesNotUniqueIff(cg: ConsumerGroup, policy: Policy)
    ensures Failure(["topics"], NamespacedNamesNotUnique) in Call(cg, policy).failures
        <==> policy.strictTopicsNamespacing && TopicsWellFormed(cg.topics)
             && !CollisionFree(TopicNames(cg.topics.items))
  {
    if TopicsWellFormed(cg.topics) {
      HasNamespaceCollisionIff(TopicNames(cg.topics.items));
    }
  }

  /** The strict-namespacing flag only switches the namespaced-collision relation on and off. */
  lemma PolicyOnlyGovernsNamespacing(cg: ConsumerGroup)
    ensures Call(cg, Policy(false)).failures
         == Call(cg, Policy(true)).failures - {Failure(["topics"], NamespacedNamesNotUnique)}
    ensures Call(cg, Policy(true)).Success()
        <==> Call(cg, Policy(false)).Success()
             && (TopicsWellFormed(cg.topics) ==> CollisionFree(TopicNames(cg.topics.items)))
  {
    if TopicsWellFormed(cg.topics) {
      HasNamespaceCollisionIff(TopicNames(cg.topics.items));
    }
  }

  /** The message for one failure; a failure without a catalog entry shows its catalog key. */
  function Render(catalog: MessageCatalog, f: Failure): string
  {
    match Lookup(catalog, MessageKey(f.path, f.key))
    case Some(m) => m
    case None => MessageKey(f.path, f.key)
  }

  function Paths(failures: set<Failure>): set<seq<string>>
  {
    set f | f in failures :: f.path
  }

  /** The result's `errors`: the rendered messages grouped by path, for any set of failures. */
  function Errors(r: Result, catalog: MessageCatalog): (e: map<seq<string>, set<string>>)
    ensures forall f :: f in r.failures ==> f.path in e && Render(catalog, f) in e[f.path]
    ensures forall p :: p in e ==> exists f :: f in r.failures && f.path == p
    ensures forall p, m :: p in e && m in e[p] ==> exists f :: f in r.failures && f.path == p && Render(catalog, f) == m
  {
    var e := map p | p in Paths(r.failures) :: set f | f in r.failures && f.path == p :: Render(catalog, f);
    e
  }

  /** `errors` is empty exactly when the result is a success: there is no partial-success state. */
  lemma ErrorsEmptyIffSuccess(r: Result, catalog: MessageCatalog)
    ensures Errors(r, catalog) == map[] <==> r.Success()
  {
  }

  /** Every failure `call` reports has an entry in the shipped catalog, so it renders to that entry's text. */
  lemma EveryFailureRenders(cg: ConsumerGroup, policy: Policy)
    ensures forall f :: f in Call(cg, policy).failures ==>
      && Lookup(Messages, MessageKey(f.path, f.key)).Some?
      && Render(Messages, f) == Lookup(Messages, MessageKey(f.path, f.key)).value
  {
    ShippedCatalogCovers();
  }
}

=== FILE: identifier.dfy ===
/** The identifier grammar a consumer-group id must match.

    The grammar is assumed to be `\A(\w|-|\.)+\z`:
    one or more ASCII word characters, dashes or dots, and nothing else.
 */
module Identifier {

  /** Ruby's `\w` without the Unicode flag: ASCII letters, digits and underscore. */
  predicate IsWordChar(c: char)
  {
    ('a' <= c <= 'z') || ('A' <= c <= 'Z') || ('0' <= c <= '9') || c == '_'
  }

  /** One repetition of the group `(\w|-|\.)`. */
  predicate IsIdChar(c: char)
  {
    IsWordChar(c) || c == '-' || c == '.'
  }

  /** Reference reading of the grammar: a non-empty string made only of identifier characters. */
  ghost predicate WellFormedId(s: string)
  {
    |s| > 0 && forall i :: 0 <= i < |s| ==> IsIdChar(s[i])
  }

  /** The anchored match of `(\w|-|\.)+`, consuming one character per step. */
  predicate MatchesIdFormat(s: string)
    decreases |s|
  {
    |s| > 0 && IsIdChar(s[0]) && (|s| == 1 || MatchesIdFormat(s[1..]))
  }

  /** The character-by-character match accepts exactly the well-formed identifiers. */
  lemma {:induction false} MatchesIdFormatIff(s: string)
    ensures MatchesIdFormat(s) <==> WellFormedId(s)
    decreases |s|
  {
    if |s| > 1 {
      MatchesIdFormatIff(s[1..]);
      if WellFormedId(s) {
        assert forall i :: 0 <= i < |s| - 1 ==> s[1..][i] == s[i + 1];
      }
      if MatchesIdFormat(s) {
        forall i | 0 <= i < |s|
          ensures IsIdChar(s[i])
        {
          if i > 0 {
            assert s[i] == s[1..][i - 1];
          }
        }
      }
    }
  }

  /** A character outside the grammar anywhere in the string rejects it. */
  lemma RejectsForeignChar(s: string, i: int)
    requires 0 <= i < |s| && !IsIdChar(s[i])
    ensures !MatchesIdFormat(s)
  {
    MatchesIdFormatIff(s);
  }
}

=== FILE: names.dfy ===
/** Uniqueness of topic names, plain and under the namespacing convention.

    Plain uniqueness is decided by comparing the list's size with the size
    of its `Uniq`, an assumed reading of the contract's uniqueness rule.
    Namespacing treats `.` and
    `_` as the same separator: two different names collide when they become
    equal once every `.` is written as `_`.
 */
module Names {

  /** Reference definition: no element occurs twice. */
  ghost predicate Distinct<T>(s: seq<T>)
  {
    forall i, j :: 0 <= i < j < |s| ==> s[i] != s[j]
  }

  /** The duplicate-free version of a list, as Ruby's `Array#uniq` gives it. */
  function Uniq<T(==,!new)>(s: seq<T>): (u: seq<T>)
    ensures |u| <= |s|
    ensures forall x :: x in u <==> x in s
    ensures Distinct(u)
    decreases |s|
  {
    if |s| == 0 then []
    else
      var init := s[..|s| - 1];
      var last := s[|s| - 1];
      assert s == init + [last];
      var u := Uniq(init);
      if last in u then u else u + [last]
  }

  /** The size comparison `|names| == |Uniq(names)|` holds exactly when no name repeats. */
  lemma {:induction false} UniqSizeIffDistinct<T(!new)>(s: seq<T>)
    ensures |Uniq(s)| == |s| <==> Distinct(s)
    decreases |s|
  {
    if |s| > 0 {
      var init := s[..|s| - 1];
      var last := s[|s| - 1];
      UniqSizeIffDistinct(init);
      if Distinct(s) {
        assert Distinct(init) by {
          forall i, j | 0 <= i < j < |init| ensures init[i] != init[j] {
            assert init[i] == s[i] && init[j] == s[j];
          }
        }
        assert last !in init by {
          forall k | 0 <= k < |init| ensures init[k] != last {
            assert init[k] == s[k];
          }
        }
      } else {
        var i, j :| 0 <= i < j < |s| && s[i] == s[j];
        if j < |s| - 1 {
          assert init[i] == s[i] && init[j] == s[j];
          assert !Distinct(init);
        } else {
          assert init[i] == last;
          assert last in Uniq(init);
        }
      }
    }
  }

  /** Ruby's `name.tr('.', '_')`. */
  function Underscore(name: string): (r: string)
    ensures |r| == |name|
    ensures '.' !in r
    ensures forall i :: 0 <= i < |name| ==> r[i] == name[i] || (name[i] == '.' && r[i] == '_')
  {
    seq(|name|, i requires 0 <= i < |name| => if name[i] == '.' then '_' else name[i])
  }

  /** A name without dots is its own normal form, and only such a name is. */
  lemma UnderscoreFixedIff(name: string)
    ensures Underscore(name) == name <==> '.' !in name
  {
  }

  /** Two different names that become equal once dots are written as underscores. */
  predicate Collide(a: string, b: string)
  {
    a != b && Underscore(a) == Underscore(b)
  }

  /** Reference definition: no two names of the list collide. */
  ghost predicate CollisionFree(names: seq<string>)
  {
    forall i, j :: 0 <= i < |names| && 0 <= j < |names| ==> !Collide(names[i], names[j])
  }

  /** Some later name collides with `name`. */
  predicate CollidesWithAny(name: string, others: seq<string>)
  {
    exists k :: 0 <= k < |others| && Collide(name, others[k])
  }

  /** Scan of the name list that compares each name with the names after it. */
  predicate HasNamespaceCollision(names: seq<string>)
    decreases |names|
  {
    |names| > 0 && (CollidesWithAny(names[0], names[1..]) || HasNamespaceCollision(names[1..]))
  }

  /** The scan finds a collision exactly when the list is not collision-free. */
  lemma {:induction false} HasNamespaceCollisionIff(names: seq<string>)
    ensures HasNamespaceCollision(names) <==> !CollisionFree(names)
    decreases |names|
  {
    if |names| > 0 {
      var tail := names[1..];
      HasNamespaceCollisionIff(tail);
      if HasNamespaceCollision(names) {
        if CollidesWithAny(names[0], tail) {
          var k :| 0 <= k < |tail| && Collide(names[0], tail[k]);
          assert names[k + 1] == tail[k];
        } else {
          var i, j :| 0 <= i < |tail| && 0 <= j < |tail| && Collide(tail[i], tail[j]);
          assert names[i + 1] == tail[i] && names[j + 1] == tail[j];
        }
      } else {
        forall i, j | 0 <= i < |names| && 0 <= j < |names|
          ensures !Collide(names[i], names[j])
        {
          if i == 0 && j > 0 {
            assert names[j] == tail[j - 1];
          } else if j == 0 && i > 0 {
            assert names[i] == tail[i - 1];
          } else if i > 0 && j > 0 {
            assert names[i] == tail[i - 1] && names[j] == tail[j - 1];
          }
        }
      }
    }
  }
}

=== FILE: scenarios.dfy ===
/** The consumer-group contract's documented examples, each as a lemma about `Call`.

    The fixture is one topic named `name` in a group whose id is `id`; every
    example edits one field of it.
 */
module Scenarios {
  import opened Config
  import opened Identifier
  import opened Names
  import opened Catalog
  import opened Contract

  function FixtureTopic(): Topic
  {
    Topic("id", "name", ClassHandle(1), ClassHandle(2),
          map["bootstrap.servers" := "localhost:9092"],
          10000, 10, true, "earliest", None)
  }

  function Fixture(): ConsumerGroup
  {
    ConsumerGroup(Str("id"), ClassHandle(0), List([FixtureTopic()]))
  }

  /** The fixture with a copy of its topic appended under the name `second`. */
  function WithSecondTopic(first: string, second: string): ConsumerGroup
  {
    Fixture().(topics := List([FixtureTopic().(name := first), FixtureTopic().(name := second)]))
  }

  const NamespacedName: string := "some.namespaced.topic-name"

  /** The fixture is accepted under the default policy. */
  lemma FixturePasses()
    ensures Call(Fixture(), DefaultPolicy).Success()
  {
  }

  /** An empty topic list fails, under either policy. */
  lemma EmptyTopicsFail(policy: Policy)
    ensures !Call(Fixture().(topics := List([])), policy).Success()
    ensures Failure(["topics"], Format) in Call(Fixture().(topics := List([])), policy).failures
  {
  }

  /** A nil topic list fails, under either policy. */
  lemma NilTopicsFail(policy: Policy)
    ensures !Call(Fixture().(topics := Nil), policy).Success()
    ensures Failure(["topics"], Format) in Call(Fixture().(topics := Nil), policy).failures
  {
  }

  /** Duplicating the fixture's topic fails, and `errors` reports it under `topics`. */
  lemma DuplicatedTopicFails(policy: Policy)
    ensures !Call(WithSecondTopic("name", "name"), policy).Success()
    ensures ["topics"] in Errors(Call(WithSecondTopic("name", "name"), policy), Messages)
  {
    DuplicateNamesFail(WithSecondTopic("name", "name"), policy, 0, 1);
  }

  /** A name that becomes `name` once dots are written as underscores is `name` itself. */
  lemma OnlyNameNormalisesToName(n: string)
    requires Underscore(n) == "name"
    ensures n == "name"
  {
  }

  /** Renaming the copied topic to any other name is accepted under the default policy. */
  lemma RenamedCopyPasses(n: string)
    requires n != "name"
    ensures Call(WithSecondTopic("name", n), DefaultPolicy).Success()
  {
    var cg := WithSecondTopic("name", n);
    var names := TopicNames(cg.topics.items);
    assert names == ["name", n];
    UnderscoreFixedIff("name");
    if Underscore(n) == "name" {
      OnlyNameNormalisesToName(n);
    }
    assert !Collide("name", n) && !Collide(n, "name");
    assert CollisionFree(names);
    CallSucceedsIff(cg, DefaultPolicy);
    assert WellFormedId("id");
  }

  /** A dotted and an underscored name that stay different after normalising are accepted. */
  lemma DistinctNamespacedNamesPass()
    ensures Call(WithSecondTopic(NamespacedName, "another_namespaced_topic-name"), DefaultPolicy).Success()
  {
    var cg := WithSecondTopic(NamespacedName, "another_namespaced_topic-name");
    var names := TopicNames(cg.topics.items);
    assert names == [NamespacedName, "another_namespaced_topic-name"];
    assert |Underscore(names[0])| != |Underscore(names[1])|;
    assert CollisionFree(names);
    CallSucceedsIff(cg, DefaultPolicy);
    assert WellFormedId("id");
  }

  /** `some.namespaced.topic-name` normalises to `some_namespaced_topic-name`. */
  lemma NamespacedNamesCollide()
    ensures Collide(NamespacedName, "some_namespaced_topic-name")
  {
    var u := Underscore(NamespacedName);
    forall i | 0 <= i < |u| ensures u[i] == "some_namespaced_topic-name"[i] {
    }
  }

  /** Under strict namespacing the dotted and underscored spellings of one name fail. */
  lemma CollidingNamespacedNamesFailWhenStrict()
    ensures !Call(WithSecondTopic(NamespacedName, "some_namespaced_topic-name"), DefaultPolicy).Success()
    ensures Failure(["topics"], NamespacedNamesNotUnique)
            in Call(WithSecondTopic(NamespacedName, "some_namespaced_topic-name"), DefaultPolicy).failures
  {
    var cg := WithSecondTopic(NamespacedName, "some_namespaced_topic-name");
    var names := TopicNames(cg.topics.items);
    assert names[0] == NamespacedName && names[1] == "some_namespaced_topic-name";
    NamespacedNamesCollide();
    assert !CollisionFree(names);
    HasNamespaceCollisionIff(names);
  }

  /** With strict namespacing off, the same two names are accepted: only the flag changed. */
  lemma CollidingNamespacedNamesPassWhenLenient()
    ensures Call(WithSecondTopic(NamespacedName, "some_namespaced_topic-name"), Policy(false)).Success()
  {
    var cg := WithSecondTopic(NamespacedName, "some_namespaced_topic-name");
    var names := TopicNames(cg.topics.items);
    assert names == [NamespacedName, "some_namespaced_topic-name"];
    assert names[0] != names[1];
    assert Distinct(names);
    CallSucceedsIff(cg, Policy(false));
    assert WellFormedId("id");
  }

  /** A nil id fails. */
  lemma NilIdFails(policy: Policy)
    ensures !Call(Fixture().(id := Nil), policy).Success()
  {
  }

  /** An integer id fails. */
  lemma IntegerIdFails(policy: Policy)
    ensures !Call(Fixture().(id := Int(2)), policy).Success()
  {
  }

  /** An id of punctuation outside the grammar fails. */
  lemma PunctuationIdFails(policy: Policy)
    ensures !Call(Fixture().(id := Str("%^&*(")), policy).Success()
    ensures Failure(["id"], Format) in Call(Fixture().(id := Str("%^&*(")), policy).failures
  {
  }
}
